=== FILE: README.md ===
# Admonitions and theme toggle, modelled in Dafny

This project models the two client-side scripts of a static documentation site.

- The **admonition decorator** (`admonitions.js`) finds `div` elements that carry one of seven category classes (`note`, `tip`, `info`, `important`, `warning`, `caution`, `attention`). It turns each one into a callout. The element is marked `admonition`, gets a tone class, a `data-admonition` attribute and an ARIA role. Its content is replaced by a title row (icon and label) and a body that holds the original non-blank children. A label repeated at the start of the body's first paragraph is removed.
- The **theme script** (`dark-mode.js`) keeps a light/dark theme on the root element and on the toggle button's `aria-label`, `aria-pressed` and icon. It reads a stored preference at load and stores the new theme on every click. It also appends one copy button to every code container that holds a `pre`, and marks the container so that later passes skip it.

The browser document is replaced by a small immutable tree (`Dom.Node`): text nodes, elements (tag, class list, attribute map, children), and opaque markup tokens for `innerHTML` icon payloads. `querySelectorAll` results are given as a list of elements. `querySelector` is a preorder search (`Dom.QuerySelector`). `localStorage` is one optional string.

Modules, one per file:

- `Wrappers`: `Option`.
- `Strings`: the white-space class used by `\s` and `trim()`, trimming, ASCII lower-casing, and case-insensitive prefixes.
- `Dom`: the node tree, `textContent`, `classList.add`, and `querySelector`.
- `RegexEscape`: `escapeForRegex`, with a literal-pattern reader as its inverse.
- `LabelPattern`: the two text regexes of `trimLeadingLabel`. Each is defined both as a grammar with the greedy longest-match rule and as a structural function, and the two are proved to agree.
- `Admonitions`: the category table, `buildTitle`, `trimLeadingLabel`, `decorateBlock` and `init`.
- `Theme`: `LABELS`, `applyTheme`, the stored-theme normalisation, and `toggleTheme`.
- `CopyButtons`: the guarded copy-button pass.
- `DarkMode`: the theme script's load sequence. Without a toggle button it returns before doing anything, including the copy-button pass.

Two behaviours of the code are worth knowing.

- Two toggles in a row restore the `data-theme` attribute. They restore the stored preference only when it already equalled the displayed theme. After a load with nothing stored, two clicks leave `"light"` in storage. One might expect two clicks to restore the stored preference as well; they do not. The model follows the code (`DarkMode.ToggleTwiceStoresTheme`).
- The label pattern `^<label>\s*:?` has no word boundary. In a Note callout, a paragraph that begins "Notebook" loses "Note" and begins "book" (`LabelPattern.CleanWordStartingWithLabel`). The model follows the code.

## Model

| member | source | states |
|---|---|---|
| Admonitions.TypesTable | admonitions.js:2-10 | seven distinct category classes; every icon is non-empty; exactly the last four entries have the warning tone |
| Admonitions.TypesLabels | admonitions.js:2-10 | each label lower-cases to its class name |
| RegexEscape.Escape | admonitions.js:12-14 | escaping at most doubles the length, never shortens, and maps only the empty string to the empty pattern |
| RegexEscape.UnescapeEscape | admonitions.js:12-14 | the escaped string read back as a literal pattern denotes exactly the original string |
| RegexEscape.EscapeUnescape | admonitions.js:12-14 | every literal pattern is the escaping of the string it denotes, so escaping is the unique literal encoding |
| RegexEscape.EscapeUnchangedIff | admonitions.js:12-14 | escaping leaves a string unchanged exactly when it holds none of the fourteen syntax characters |
| Admonitions.BuildTitle | admonitions.js:16-30 | a title div whose text is icon then label; an aria-hidden icon span comes first only when the icon is non-empty; the label span is always last |
| Strings.Trim | admonitions.js:42 | the trimmed string is empty exactly when the input is all white space, otherwise starts and ends with a non-space character, and is the slice between the leading and trailing white-space runs |
| LabelPattern.SpaceColonLongest | admonitions.js:36 | what `SpaceColonLength` counts, a white-space run and then at most one colon, is the longest prefix matching `\s*:?` |
| LabelPattern.RemoveLabel | admonitions.js:48 | without a case-insensitive label prefix the text is unchanged; with one, at least the label is cut off; the result is always a suffix of the text |
| LabelPattern.RemoveLabelLongest | admonitions.js:36 | after the label, exactly the longest `\s*:?` match is removed |
| LabelPattern.ColonPrefixLongest | admonitions.js:48 | a white-space run, an optional colon and a second white-space run form the longest `\s*:?\s*` match, and that is exactly what `StripColonPrefix` removes |
| LabelPattern.StripColonPrefix | admonitions.js:48 | the result is a suffix of the text that does not start with white space |
| LabelPattern.CleanLeadingText | admonitions.js:46-49 | the cleaned text is a suffix that does not start with white space; it is at least the label shorter when the label matched; without a match only the colon prefix is stripped |
| LabelPattern.CleanLabelAndColon | admonitions.js:48 | `note : ok` under the label Note becomes `ok` |
| LabelPattern.CleanWordStartingWithLabel | admonitions.js:36 | the label match is by prefix only: `Notebook` under Note becomes `book` |
| LabelPattern.CleanWithoutLabel | admonitions.js:48 | leading white space and a colon are stripped even when the label is absent |
| LabelPattern.CleanRepeatedColons | admonitions.js:48 | at most two leading colons are removed, one with the label and one after it |
| Admonitions.TrimParagraphChildren | admonitions.js:37-49 | the first child is removed exactly when it is a STRONG/B whose trimmed text starts with the label up to case; no other child is removed; the new first child, if it is text, is cleaned and otherwise kept; the rest are unchanged |
| Admonitions.TrimLeadingLabel | admonitions.js:32-40 | a missing paragraph stays missing; a paragraph with no children is unchanged; only the paragraph's children can change |
| Admonitions.TrimParagraphTextSuffix | admonitions.js:41-49 | trimming only removes a prefix of the paragraph's text content |
| Admonitions.TrimFirstParagraph | admonitions.js:82-83 | a paragraph is trimmed exactly when one lies in or below the body's children; otherwise nothing changes; which nodes it may change is stated by `TrimFirstParagraphFrame` |
| Admonitions.TrimFirstParagraphQuery | admonitions.js:82-83 | the paragraph that `querySelector('p')` finds after trimming is the trimmed version of the one it found before |
| Dom.QuerySelectorFinds | admonitions.js:82 | the preorder search finds an element exactly when one with the tag lies below |
| Dom.AddClass | admonitions.js:58 | the token is added and the original tokens are kept in order; at most one token is appended, and a token already present leaves the list exactly as it was |
| Strings.Lower | admonitions.js:59 | the lower-cased label has the same length, no upper-case ASCII letter, equals the input up to case at every position, and differs from it exactly at the upper-case ASCII letters |
| Strings.LowerIgnoresCase | admonitions.js:59 | a lower-cased string equals the original up to case in both directions, and lower-casing twice is lower-casing once |
| Strings.StartsWithIgnoringCaseLower | admonitions.js:36 | a case-insensitive prefix is exactly one whose lower-cased form equals the lower-cased start of the text |
| Admonitions.KeepContentFilters | admonitions.js:71-76 | the body content is the original children, in order, with exactly the blank text nodes left out |
| Admonitions.KeepContent | admonitions.js:71-76 | no kept node is blank text, and content without blank text is kept whole |
| Admonitions.DecorateBlock | admonitions.js:52-86 | the result is always marked decorated, keeps the tag and every class, and an element already decorated is returned unchanged |
| Admonitions.DecorateBlockIdempotent | admonitions.js:53-58 | a second decoration, with any table entry, changes nothing |
| Admonitions.DecorateBlockAttrs | admonitions.js:59-60 | the role is `alert` exactly for the warning tone and `note` otherwise; `data-admonition` is the lower-cased label; every other attribute is kept and no other is added |
| Admonitions.DecorateBlockClasses | admonitions.js:57-58 | `admonition` and the tone class matching the entry are added after the original classes, which are kept in order; the other tone class is present only if it already was; at most two tokens are added and no token other than these two appears |
| Admonitions.DecorateNamesCategory | admonitions.js:59 | an element decorated through a table entry gets that entry's class name as its `data-admonition` |
| Admonitions.DecorateBlockContent | admonitions.js:62-85 | the children become exactly title then body; the body is the kept content, or one empty `p` when nothing is kept; the first `p` of the body is the trimmed first `p` of the kept content; every body child is the kept node at its position, except that the first node holding a `p` may have other children |
| Admonitions.TrimFirstParagraphFrame | admonitions.js:82-83 | trimming rewrites only the first node that is or holds a `p`: every other node is kept, and that node only gets the trimmed paragraph's children or, further down, its own children trimmed the same way |
| Admonitions.Body | admonitions.js:68-80 | the body is a `div` of class `admonition__body` with no attributes and never empty; when no child is kept it holds one empty `p` |
| Admonitions.LabelEmphasisByLowerCase | admonitions.js:41-42 | the first child counts as a label exactly when it is a STRONG or B element whose trimmed text, cut to the label's length, lower-cases to the lower-cased label |
| Dom.TextContentInTreeOrder | admonitions.js:42 | `textContent` is the text of every text node below, in document order |
| Dom.QuerySelector | admonitions.js:82 | what `querySelector` returns is an element with the tag from the nodes below, and no element before it in document order has that tag |
| Admonitions.FirstMatch | admonitions.js:89-93 | picks the first table entry whose class the div carries, and none exactly when no entry matches |
| Admonitions.InitFirstMatch | admonitions.js:88-94 | after `init` every element is exactly its decoration by the first table entry it matches, or unchanged if none |
| Admonitions.Init | admonitions.js:88-94 | `init` keeps the element list's length, and each element becomes its decoration by the first table entry it matches, or stays as it was |
| Admonitions.InitIdempotent | admonitions.js:88-94 | running `init` a second time changes nothing |
| Admonitions.MultiClassExample | admonitions.js:88-94 | a div with classes `warning note` becomes a Note: `data-admonition` and role are `note`, with the info tone class and no warn tone class |
| Theme.ReadTheme | dark-mode.js:29-30 | the normalised theme is dark exactly when the stored value is the string `dark`, and light for an absent or any other value |
| Theme.ReadName | dark-mode.js:29-30 | reading back a written theme name gives the theme; the two names differ |
| Theme.ApplyTheme | dark-mode.js:17-26 | `data-theme` is the theme's name; storage is written with it exactly when persisting and is untouched otherwise; `aria-label` is the theme's label; `aria-pressed` is `true` exactly for dark; the icon matches the theme |
| Theme.Startup | dark-mode.js:29-31 | load never writes storage; the page is dark exactly when storage holds `dark` and light otherwise |
| Theme.Toggle | dark-mode.js:17-38 | a click shows the opposite of the normalised active theme, writes exactly `light` or `dark` to the attribute and to storage, and sets the button's label, pressed state and icon for that theme |
| Theme.OppositeInvolution | dark-mode.js:36 | flipping the theme twice gives it back and flipping never fixes a theme |
| Theme.ToggleTwice | dark-mode.js:34-38 | two clicks equal re-applying and storing the normalised active theme |
| Theme.ToggleTwiceRestores | dark-mode.js:17-38 | from a normalised page two clicks restore `data-theme` and store it; the whole page comes back exactly when it already stores its theme and the button already shows that theme's label, pressed state and icon, so a page that has only stored its theme is not restored |
| Theme.ToggleInvolutionAfterClick | dark-mode.js:34-38 | on every page reached by a click, two more clicks restore the page |
| Theme.ClicksAfterStartup | dark-mode.js:29-38 | after load and k clicks the theme is the stored one flipped k times; the attribute is normalised; storage is untouched before the first click and equals the displayed theme after it; the label matches |
| CopyButtons.CopyButton | dark-mode.js:55-61 | the appended control is a BUTTON with class `copy-code-button` and holds no `pre` |
| CopyButtons.AddCopyButton | dark-mode.js:49-88 | a marked container or one without `pre` is unchanged; otherwise exactly one copy button is appended and the container becomes marked, with every other attribute kept; marking happens only together with that append; `pre` presence is unchanged |
| CopyButtons.Pass | dark-mode.js:44-90 | one pass handles every selected container on its own, in order; a container ends up marked exactly when it was marked or holds a `pre`, and one that changes gains only the marker and one button |
| CopyButtons.AddCopyButtonIdempotent | dark-mode.js:50-88 | handling a container twice is handling it once |
| CopyButtons.PassIdempotent | dark-mode.js:44-90 | a second pass over the same containers changes nothing |
| CopyButtons.PassesStable | dark-mode.js:44-90 | any positive number of passes gives the same containers as one |
| CopyButtons.PassesAddAtMostOne | dark-mode.js:49-88 | after any number of passes each container has gained at most one button; a newly marked container gained exactly that button; a container without `pre` is untouched |
| CopyButtons.SkippedContainerStaysEligible | dark-mode.js:52-53 | a container skipped for lacking `pre` stays unmarked, so it gets its button once a `pre` is added |
| DarkMode.Load | dark-mode.js:4-96 | without a toggle button nothing changes, so no container gets a copy button or a marker; with one, load leaves storage alone, shows dark exactly when `dark` is stored, and marks exactly the containers that were marked or hold a `pre` |
| DarkMode.ToggleTwiceStoresTheme | dark-mode.js:29-38 | after a load with nothing stored, two clicks restore the attribute but leave `light` in storage |

## Left out

- Event wiring: `addEventListener`, `readyState` and `DOMContentLoaded` (admonitions.js:96-100, dark-mode.js:41, 92-97). The models run `init`, the load sequence and the copy pass directly, and a click is a call to `Theme.Toggle`.
- The copy button's click handler: clipboard writes, the promise callbacks, the 1.5-second revert and console logging (dark-mode.js:62-85). They are asynchronous browser services with no state the rest of the script reads.
- The SVG payloads assigned through `innerHTML` (dark-mode.js:25, 60) are opaque tokens (`Theme.Icon`, the copy icon's `Markup` token). Their text content is taken to be empty, which holds for the SVG strings. The emoji icons of the admonition titles are set through `textContent` and are kept as text with their exact code points.
- `document.querySelectorAll` is a given flat list of elements. Admonitions nested inside admonitions, and code containers nested in each other, are not modelled: in the browser decorating one such element changes the content another one holds.
- Comment nodes, and every node kind other than text and elements, are not modelled. The body filter keeps such nodes in the browser.
- Class lists are sequences of tokens that `AddClass` never duplicates. Duplicates already present in a `class` attribute are not collapsed, as the browser's token list would do.
- `toLowerCase` and the regex `i` flag are modelled as ASCII case mapping. This is exact for the seven ASCII labels and for matching them, because JavaScript's non-Unicode case folding never maps a non-ASCII character onto an ASCII letter. Full JavaScript regex semantics are not modelled: the label is a literal because `escapeForRegex` makes it one (`RegexEscape.UnescapeEscape`).
- Storage that throws on access, as some browsers' private modes do, is not modelled. The script does not catch such an exception, and the model has no failure path for it.
- `\s` and `trim()` use the ECMAScript WhiteSpace and LineTerminator code points as one fixed predicate. Any other Unicode space separator a newer Unicode version adds is not included.
- Admonitions.DecorateBlock: its contract states only marking, idempotence and class preservation. What it writes is stated by the lemmas `DecorateBlockAttrs`, `DecorateBlockClasses` and `DecorateBlockContent`.
- DarkMode.Load: assumes the document has been parsed, that is, the `readyState` branch that runs the pass immediately.

=== FILE: admonitions.dfy ===
/**
 * The admonition decorator: every `div` carrying one of seven category
 * classes is rewritten into a titled callout, a title row (icon and label)
 * followed by a body holding the original content, with a redundant leading
 * label removed from the first paragraph.
 */
module Admonitions {
  import opened Wrappers
  import opened Strings
  import opened Dom
  import opened LabelPattern

  datatype Tone = Info | Warn

  /** One row of the category table: the label shown in the title, the tone
      and the icon glyph. */
  datatype Config = Config(labelText: string, tone: Tone, icon: string)

  const WarningSign := "\U{26A0}\U{FE0F}"

  /** The category table, keyed by class name, in declaration order (the
      order in which `init` visits it). */
  const Types: seq<(string, Config)> := [
    ("note", Config("Note", Info, "\U{1F4DD}")),
    ("tip", Config("Tip", Info, "\U{1F4A1}")),
    ("info", Config("Info", Info, "\U{2139}\U{FE0F}")),
    ("important", Config("Important", Warn, WarningSign)),
    ("warning", Config("Warning", Warn, WarningSign)),
    ("caution", Config("Caution", Warn, WarningSign)),
    ("attention", Config("Attention", Warn, WarningSign))
  ]

  const DecoratedClass := "admonition"
  const TitleClass := "admonition__title"
  const IconClass := "admonition__icon"
  const BodyClass := "admonition__body"
  const DataAdmonition := "data-admonition"
  const RoleAttr := "role"

  function ToneClass(tone: Tone): string {
    if tone == Warn then "admonition--warn" else "admonition--info"
  }

  function RoleOf(tone: Tone): string {
    if tone == Warn then "alert" else "note"
  }

  predicate IsDecorated(n: Node) {
    HasClass(n, DecoratedClass)
  }

  /** `buildTitle(label, icon)`: a title `div` holding an icon span, only when
      the icon is non-empty, and a span with the label. */
  function BuildTitle(labelText: string, icon: string): (r: Node)
    ensures r.Elem? && r.tag == "DIV" && r.classes == [TitleClass] && r.attrs == map[]
    ensures |r.children| == (if icon == "" then 1 else 2)
    ensures TextContent(r) == icon + labelText
    ensures icon != "" ==>
      var s := r.children[0];
      && s.Elem? && s.tag == "SPAN" && s.classes == [IconClass]
      && s.attrs == map["aria-hidden" := "true"] && TextContent(s) == icon
    ensures var t := r.children[|r.children| - 1];
      && t.Elem? && t.tag == "SPAN" && t.classes == [] && t.attrs == map[]
      && TextContent(t) == labelText
  {
    var textSpan := ElemWithText("SPAN", [], map[], labelText);
    var iconSpans :=
      if icon != "" then [ElemWithText("SPAN", [IconClass], map["aria-hidden" := "true"], icon)] else [];
    var children := iconSpans + [textSpan];
    assert TextContentSeq(children) == icon + labelText by {
      TextContentSeqConcat(iconSpans, [textSpan]);
      assert TextContentSeq(iconSpans) == icon;
    }
    Elem("DIV", [TitleClass], map[], children)
  }

  /** A text node that `trim()` empties; such nodes are not moved into the body. */
  predicate IsBlankText(n: Node) {
    n.Text? && Trim(n.text) == ""
  }

  /** The original children that move into the body, in their order. */
  function KeepContent(xs: seq<Node>): (r: seq<Node>)
    ensures |r| <= |xs|
    ensures forall i :: 0 <= i < |r| ==> !IsBlankText(r[i])
    ensures (forall i :: 0 <= i < |xs| ==> !IsBlankText(xs[i])) ==> r == xs
  {
    if xs == [] then []
    else
      var rest := KeepContent(xs[1..]);
      if IsBlankText(xs[0]) then rest
      else
        assert forall i :: 1 <= i < |xs| ==> xs[1..][i - 1] == xs[i];
        [xs[0]] + rest
  }

  /** A bold or strong element whose trimmed text starts with the label up to
      case: the label pattern only has to match a prefix. */
  predicate IsLabelEmphasis(n: Node, labelText: string) {
    && n.Elem?
    && (n.tag == "STRONG" || n.tag == "B")
    && StartsWithIgnoringCase(Trim(TextContent(n)), labelText)
  }

  /** The label test on the first child, read as a comparison of lower-cased
      strings: a STRONG or B element whose trimmed text, cut to the label's
      length, lower-cases to the lower-cased label. */
  lemma LabelEmphasisByLowerCase(n: Node, labelText: string)
    ensures IsLabelEmphasis(n, labelText) <==>
      && n.Elem? && (n.tag == "STRONG" || n.tag == "B")
      && var t := Trim(TextContent(n));
         |labelText| <= |t| && Lower(t[..|labelText|]) == Lower(labelText)
  {
    StartsWithIgnoringCaseLower(Trim(TextContent(n)), labelText);
  }

  /** What cleaning does to the node that ends up first: a text node loses
      the label prefix, any other node is kept. */
  function CleanNode(n: Node, labelText: string): Node {
    if n.Text? then Text(CleanLeadingText(n.text, labelText)) else n
  }

  /** The child list of a paragraph after `trimLeadingLabel`: a leading label
      emphasis is removed, then the node that is first is cleaned. */
  function TrimParagraphChildren(children: seq<Node>, labelText: string): (r: seq<Node>)
    ensures children == [] ==> r == []
    ensures children != [] ==>
      && |children| - 1 <= |r| <= |children|
      && (|r| < |children| <==> IsLabelEmphasis(children[0], labelText))
    ensures var k := |children| - |r|;
      r != [] ==> r[0] == CleanNode(children[k], labelText) && r[1..] == children[k + 1..]
  {
    if children == [] then children
    else
      var rest := if IsLabelEmphasis(children[0], labelText) then children[1..] else children;
      if rest == [] then rest
      else [CleanNode(rest[0], labelText)] + rest[1..]
  }

  /** `trimLeadingLabel(paragraph, label)`: a missing paragraph stays missing
      and only the paragraph's children change. */
  function TrimLeadingLabel(paragraph: Option<Node>, labelText: string): (r: Option<Node>)
    requires paragraph.Some? ==> paragraph.value.Elem?
    ensures r.Some? <==> paragraph.Some?
    ensures r.Some? ==>
      && r.value.Elem?
      && r.value == paragraph.value.(children := r.value.children)
      && (paragraph.value.children == [] ==> r == paragraph)
  {
    match paragraph
    case None => None
    case Some(p) => Some(p.(children := TrimParagraphChildren(p.children, labelText)))
  }

  /** Trims the first paragraph in document order among `xs` and below them;
      the flag says whether there was one. */
  function TrimFirstParagraph(xs: seq<Node>, labelText: string): (r: (seq<Node>, bool))
    ensures |r.0| == |xs|
    ensures r.1 <==> ContainsTag(xs, "P")
    ensures !r.1 ==> r.0 == xs
  {
    if xs == [] then (xs, false)
    else
      var x := xs[0];
      var (rest, foundLater) := TrimFirstParagraph(xs[1..], labelText);
      ContainsTagConcat([x], xs[1..], "P");
      assert xs == [x] + xs[1..];
      if x.Elem? && x.tag == "P" then
        ([x.(children := TrimParagraphChildren(x.children, labelText))] + xs[1..], true)
      else if x.Elem? then
        var (inner, foundInside) := TrimFirstParagraph(x.children, labelText);
        if foundInside then ([x.(children := inner)] + xs[1..], true)
        else ([x] + rest, foundLater)
      else ([x] + rest, foundLater)
  }

  const EmptyParagraph := Elem("P", [], map[], [])

  /** The body `div` built from an element's original children. */
  function Body(children: seq<Node>, labelText: string): (r: Node)
    ensures r.Elem? && r.tag == "DIV" && r.classes == [BodyClass] && r.attrs == map[]
    ensures r.children != []
    ensures KeepContent(children) == [] ==> r.children == [EmptyParagraph]
  {
    var kept := KeepContent(children);
    var filled := if kept == [] then [EmptyParagraph] else kept;
    Elem("DIV", [BodyClass], map[], TrimFirstParagraph(filled, labelText).0)
  }

  /** `decorateBlock(element, config)`. */
  function DecorateBlock(e: Node, cfg: Config): (r: Node)
    requires e.Elem?
    ensures r.Elem? && r.tag == e.tag
    ensures IsDecorated(r)
    ensures IsDecorated(e) ==> r == e
    ensures forall c :: c in e.classes ==> c in r.classes
  {
    if DecoratedClass in e.classes then e
    else
      Elem(e.tag,
           AddClass(AddClass(e.classes, DecoratedClass), ToneClass(cfg.tone)),
           e.attrs[DataAdmonition := Lower(cfg.labelText)][RoleAttr := RoleOf(cfg.tone)],
           [BuildTitle(cfg.labelText, cfg.icon), Body(e.children, cfg.labelText)])
  }

  /** An element that `querySelectorAll('div.' + cls)` returns. */
  predicate Selects(n: Node, cls: string) {
    n.Elem? && n.tag == "DIV" && cls in n.classes
  }

  function DecorateIfSelected(n: Node, cls: string, cfg: Config): (r: Node)
    ensures Selects(n, cls) ==> r == DecorateBlock(n, cfg)
    ensures !Selects(n, cls) ==> r == n
  {
    if Selects(n, cls) then DecorateBlock(n, cfg) else n
  }

  /** One step of `init`: every element of the page that carries class `cls`
      is decorated with `cfg`, the others are untouched. */
  function DecoratePass(blocks: seq<Node>, cls: string, cfg: Config): (r: seq<Node>)
    ensures |r| == |blocks|
    ensures forall i :: 0 <= i < |blocks| ==> r[i] == DecorateIfSelected(blocks[i], cls, cfg)
  {
    seq(|blocks|, i requires 0 <= i < |blocks| => DecorateIfSelected(blocks[i], cls, cfg))
  }

  /** `init` with a given table: one pass per entry, in table order. */
  function InitWith(blocks: seq<Node>, types: seq<(string, Config)>): (r: seq<Node>)
    ensures |r| == |blocks|
    decreases |types|
  {
    if types == [] then blocks
    else InitWith(DecoratePass(blocks, types[0].0, types[0].1), types[1..])
  }

  /** `init()` over the page's elements. */
  function Init(blocks: seq<Node>): (r: seq<Node>)
    ensures |r| == |blocks|
    ensures forall i :: 0 <= i < |blocks| ==> r[i] == ApplyMatch(blocks[i], FirstMatch(blocks[i], Types))
  {
    var r := InitWith(blocks, Types);
    assert forall i :: 0 <= i < |blocks| ==> r[i] == ApplyMatch(blocks[i], FirstMatch(blocks[i], Types)) by {
      forall i | 0 <= i < |blocks|
        ensures r[i] == ApplyMatch(blocks[i], FirstMatch(blocks[i], Types))
      {
        InitFirstMatch(blocks, Types, i);
      }
    }
    r
  }

  /** The first table entry whose class the element carries as a `div`. */
  function FirstMatch(n: Node, types: seq<(string, Config)>): (r: Option<Config>)
    ensures r.Some? ==>
      && n.Elem?
      && exists k :: && 0 <= k < |types| && Selects(n, types[k].0) && types[k].1 == r.value
                     && forall j :: 0 <= j < k ==> !Selects(n, types[j].0)
    ensures r.None? <==> forall k :: 0 <= k < |types| ==> !Selects(n, types[k].0)
  {
    if types == [] then None
    else if Selects(n, types[0].0) then Some(types[0].1)
    else
      var r := FirstMatch(n, types[1..]);
      assert forall k :: 1 <= k < |types| ==> types[1..][k - 1] == types[k];
      r
  }

  /** The decoration chosen for an element by the first matching entry, if any. */
  function ApplyMatch(n: Node, m: Option<Config>): Node
    requires m.Some? ==> n.Elem?
  {
    match m
    case None => n
    case Some(cfg) => DecorateBlock(n, cfg)
  }

  // ---------------------------------------------------------------------
  // The category table

  /** The table has seven distinct classes, every icon is non-empty, and the
      last four categories are the warning-toned ones. */
  lemma TypesTable()
    ensures |Types| == 7
    ensures forall k, j :: 0 <= k < j < |Types| ==> Types[k].0 != Types[j].0
    ensures forall k :: 0 <= k < |Types| ==> Types[k].1.icon != ""
    ensures forall k :: 0 <= k < |Types| ==> (Types[k].1.tone == Warn <==> 3 <= k)
  {
  }

  /** Each label lower-cases to its class name. */
  lemma TypesLabels()
    ensures forall k :: 0 <= k < |Types| ==> Lower(Types[k].1.labelText) == Types[k].0
  {
  }

  // ---------------------------------------------------------------------
  // decorateBlock

  /** Decoration runs at most once per element: whatever entry is used the
      second time, the element comes back unchanged. */
  lemma DecorateBlockIdempotent(e: Node, first: Config, second: Config)
    requires e.Elem?
    ensures DecorateBlock(DecorateBlock(e, first), second) == DecorateBlock(e, first)
  {
  }

  /** The attributes decoration writes: the role is `alert` exactly for the
      warning tone and `note` otherwise, `data-admonition` is the lower-cased
      label, and every other attribute is kept. */
  lemma DecorateBlockAttrs(e: Node, cfg: Config)
    requires e.Elem? && !IsDecorated(e)
    ensures var a := DecorateBlock(e, cfg).attrs;
      && RoleAttr in a && DataAdmonition in a
      && (a[RoleAttr] == "alert" <==> cfg.tone == Warn)
      && (a[RoleAttr] == "note" <==> cfg.tone == Info)
      && a[DataAdmonition] == Lower(cfg.labelText)
      && a.Keys == e.attrs.Keys + {RoleAttr, DataAdmonition}
      && forall k :: k in e.attrs && k != RoleAttr && k != DataAdmonition ==> a[k] == e.attrs[k]
  {
  }

  /** The classes decoration adds: `admonition` and the tone class matching
      the entry, after the original classes. */
  lemma DecorateBlockClasses(e: Node, cfg: Config)
    requires e.Elem? && !IsDecorated(e)
    ensures var c := DecorateBlock(e, cfg).classes;
      && DecoratedClass in c && ToneClass(cfg.tone) in c
      && ("admonition--warn" in c <==> cfg.tone == Warn || "admonition--warn" in e.classes)
      && ("admonition--info" in c <==> cfg.tone == Info || "admonition--info" in e.classes)
      && |e.classes| < |c| <= |e.classes| + 2 && c[..|e.classes|] == e.classes
      && forall x :: x in c <==> x in e.classes || x == DecoratedClass || x == ToneClass(cfg.tone)
  {
  }

  /** Decorating an element selected through table entry `k` records the
      entry's class name in `data-admonition`. */
  lemma DecorateNamesCategory(e: Node, k: nat)
    requires k < |Types| && Selects(e, Types[k].0) && !IsDecorated(e)
    ensures DataAdmonition in DecorateBlock(e, Types[k].1).attrs
    ensures DecorateBlock(e, Types[k].1).attrs[DataAdmonition] == Types[k].0
  {
    TypesLabels();
  }

  /** What decoration makes of the content: the children become exactly the
      title and the body; the body holds the kept content, or one empty
      paragraph when nothing is kept; the first paragraph the body's
      `querySelector('p')` finds is the trimmed version of the one it found
      before; content without any paragraph is moved unchanged. */
  lemma DecorateBlockContent(e: Node, cfg: Config)
    requires e.Elem? && !IsDecorated(e)
    ensures var r := DecorateBlock(e, cfg);
      var kept := KeepContent(e.children);
      var body := Body(e.children, cfg.labelText);
      && r.children == [BuildTitle(cfg.labelText, cfg.icon), body]
      && (kept == [] ==> body.children == [EmptyParagraph])
      && (kept != [] ==> |body.children| == |kept|)
      && (kept != [] && !ContainsTag(kept, "P") ==> body.children == kept)
      && (kept != [] ==>
            QuerySelector(body.children, "P") == TrimLeadingLabel(QuerySelector(kept, "P"), cfg.labelText))
      && (ContainsTag(kept, "P") ==> exists j :: FirstHolding(kept, j, "P") && ChangedOnlyAt(kept, body.children, j))
  {
    var kept := KeepContent(e.children);
    if kept != [] {
      TrimFirstParagraphQuery(kept, cfg.labelText);
      TrimFirstParagraphFrame(kept, cfg.labelText);
    }
  }

  /** Trimming touches only the first node of the list that is or holds a
      paragraph: every other node is kept, and of that node only the children
      change, to the trimmed paragraph's children or, further down, to the
      same trimming applied to its own children. */
  predicate TrimmedAt(xs: seq<Node>, r: seq<Node>, j: int, labelText: string) {
    && FirstHolding(xs, j, "P") && ChangedOnlyAt(xs, r, j)
    && r[j].children == if xs[j].tag == "P"
                        then TrimParagraphChildren(xs[j].children, labelText)
                        else TrimFirstParagraph(xs[j].children, labelText).0
  }

  lemma {:induction false} TrimFirstParagraphFrame(xs: seq<Node>, labelText: string)
    ensures var (r, found) := TrimFirstParagraph(xs, labelText);
      found ==> exists j :: TrimmedAt(xs, r, j, labelText)
  {
    if xs != [] {
      var x := xs[0];
      if x.Elem? && (x.tag == "P" || TrimFirstParagraph(x.children, labelText).1) {
        TrimmedAtHead(xs, labelText);
      } else if TrimFirstParagraph(xs[1..], labelText).1 {
        TrimFirstParagraphFrame(xs[1..], labelText);
        var j :| TrimmedAt(xs[1..], TrimFirstParagraph(xs[1..], labelText).0, j, labelText);
        TrimmedAtShift(xs, labelText, j);
      }
    }
  }

  /** The first node is or holds the paragraph: it alone is rewritten. */
  lemma TrimmedAtHead(xs: seq<Node>, labelText: string)
    requires xs != [] && xs[0].Elem?
    requires xs[0].tag == "P" || TrimFirstParagraph(xs[0].children, labelText).1
    ensures TrimmedAt(xs, TrimFirstParagraph(xs, labelText).0, 0, labelText)
  {
  }

  /** The first node holds no paragraph: it is kept, and the trimmed node
      moves one place along. */
  lemma TrimmedAtShift(xs: seq<Node>, labelText: string, j: int)
    requires xs != [] && !(xs[0].Elem? && (xs[0].tag == "P" || TrimFirstParagraph(xs[0].children, labelText).1))
    requires TrimmedAt(xs[1..], TrimFirstParagraph(xs[1..], labelText).0, j, labelText)
    ensures TrimFirstParagraph(xs, labelText).1
    ensures TrimmedAt(xs, TrimFirstParagraph(xs, labelText).0, j + 1, labelText)
  {
    var x := xs[0];
    var rest := TrimFirstParagraph(xs[1..], labelText).0;
    var r := TrimFirstParagraph(xs, labelText).0;
    assert r == [x] + rest;
    assert !HoldsTag(x, "P");
    assert xs[1..][j] == xs[j + 1] && rest[j] == r[j + 1];
    assert FirstHolding(xs, j + 1, "P");
    assert ChangedOnlyAt(xs, r, j + 1);
  }

  /** The kept content is the original children with exactly the blank text
      nodes left out, in their original order. */
  lemma {:induction false} KeepContentFilters(xs: seq<Node>)
    ensures IsSubsequence(KeepContent(xs), xs)
    ensures forall x :: multiset(KeepContent(xs))[x] == if IsBlankText(x) then 0 else multiset(xs)[x]
  {
    if xs != [] {
      KeepContentFilters(xs[1..]);
      var rest := KeepContent(xs[1..]);
      assert multiset(xs) == multiset{xs[0]} + multiset(xs[1..]) by {
        assert xs == [xs[0]] + xs[1..];
      }
      if IsBlankText(xs[0]) {
        assert KeepContent(xs) == rest;
      } else {
        var r := KeepContent(xs);
        assert r == [xs[0]] + rest;
        assert r[0] == xs[0] && r[1..] == rest;
        assert multiset(r) == multiset{xs[0]} + multiset(rest);
      }
    }
  }

  /** Trimming a paragraph only ever removes a prefix of its text. */
  lemma TrimParagraphTextSuffix(children: seq<Node>, labelText: string)
    ensures IsSuffix(TextContentSeq(TrimParagraphChildren(children, labelText)), TextContentSeq(children))
  {
    if children != [] {
      var rest := if IsLabelEmphasis(children[0], labelText) then children[1..] else children;
      assert IsSuffix(TextContentSeq(rest), TextContentSeq(children)) by {
        if rest != children {
          DropFirstTextSuffix(children);
        }
      }
      if rest != [] {
        CleanFirstTextSuffix(rest, labelText);
        SuffixTransitive(TextContentSeq(TrimParagraphChildren(children, labelText)),
                         TextContentSeq(rest), TextContentSeq(children));
      }
    }
  }

  lemma DropFirstTextSuffix(xs: seq<Node>)
    requires xs != []
    ensures IsSuffix(TextContentSeq(xs[1..]), TextContentSeq(xs))
  {
  }

  lemma CleanFirstTextSuffix(xs: seq<Node>, labelText: string)
    requires xs != []
    ensures IsSuffix(TextContentSeq([CleanNode(xs[0], labelText)] + xs[1..]), TextContentSeq(xs))
  {
    var ys := [CleanNode(xs[0], labelText)] + xs[1..];
    assert ys[1..] == xs[1..];
    assert IsSuffix(TextContent(ys[0]), TextContent(xs[0]));
    SuffixAppend(TextContent(ys[0]), TextContent(xs[0]), TextContentSeq(xs[1..]));
  }

  lemma SuffixAppend(a: string, b: string, c: string)
    requires IsSuffix(a, b)
    ensures IsSuffix(a + c, b + c)
  {
    assert (b + c)[|b + c| - |a + c|..] == b[|b| - |a|..] + c;
  }

  lemma SuffixTransitive(a: string, b: string, c: string)
    requires IsSuffix(a, b) && IsSuffix(b, c)
    ensures IsSuffix(a, c)
  {
  }

  /** The paragraph `querySelector('p')` finds after trimming is the trimmed
      version of the one it found before: trimming acts on the first
      paragraph in document order, and on nothing before it. */
  lemma {:induction false} TrimFirstParagraphQuery(xs: seq<Node>, labelText: string)
    ensures QuerySelector(TrimFirstParagraph(xs, labelText).0, "P")
            == TrimLeadingLabel(QuerySelector(xs, "P"), labelText)
  {
    if xs != [] {
      var x := xs[0];
      if x.Elem? && x.tag == "P" {
        QueryAtParagraph(xs, labelText);
      } else {
        TrimFirstParagraphQuery(xs[1..], labelText);
        if x.Elem? {
          TrimFirstParagraphQuery(x.children, labelText);
          QueryInElement(xs, labelText);
        } else {
          QueryAfterLeaf(xs, labelText);
        }
      }
    }
  }

  /** The first node is itself a paragraph: it is the one found and trimmed. */
  lemma QueryAtParagraph(xs: seq<Node>, labelText: string)
    requires xs != [] && xs[0].Elem? && xs[0].tag == "P"
    ensures QuerySelector(TrimFirstParagraph(xs, labelText).0, "P")
            == TrimLeadingLabel(QuerySelector(xs, "P"), labelText)
  {
    var x := xs[0];
    var r := TrimFirstParagraph(xs, labelText).0;
    var inner := Preorder(x.children);
    assert Preorder(xs) == [x] + inner + Preorder(xs[1..]);
    FirstWithTagConcat([x] + inner, Preorder(xs[1..]), "P");
    FirstWithTagConcat([x], inner, "P");
    var x' := x.(children := TrimParagraphChildren(x.children, labelText));
    assert r[0] == x';
    var inner' := Preorder(x'.children);
    assert Preorder(r) == [x'] + inner' + Preorder(r[1..]);
    FirstWithTagConcat([x'] + inner', Preorder(r[1..]), "P");
    FirstWithTagConcat([x'], inner', "P");
  }

  /** The first node is a text or markup leaf: the search goes on after it. */
  lemma QueryAfterLeaf(xs: seq<Node>, labelText: string)
    requires xs != [] && !xs[0].Elem?
    requires QuerySelector(TrimFirstParagraph(xs[1..], labelText).0, "P")
             == TrimLeadingLabel(QuerySelector(xs[1..], "P"), labelText)
    ensures QuerySelector(TrimFirstParagraph(xs, labelText).0, "P")
            == TrimLeadingLabel(QuerySelector(xs, "P"), labelText)
  {
    var x := xs[0];
    var rest := TrimFirstParagraph(xs[1..], labelText).0;
    TrimFirstParagraphLeaf(xs, labelText);
    assert xs == [x] + xs[1..];
    QueryPastLeaf(x, xs[1..]);
    QueryPastLeaf(x, rest);
  }

  lemma TrimFirstParagraphLeaf(xs: seq<Node>, labelText: string)
    requires xs != [] && !xs[0].Elem?
    ensures TrimFirstParagraph(xs, labelText).0 == [xs[0]] + TrimFirstParagraph(xs[1..], labelText).0
  {
  }

  /** A leaf before the nodes searched does not change what is found. */
  lemma QueryPastLeaf(x: Node, ys: seq<Node>)
    requires !x.Elem?
    ensures QuerySelector([x] + ys, "P") == QuerySelector(ys, "P")
  {
    assert ([x] + ys)[1..] == ys;
    assert Preorder([x] + ys) == [x] + Preorder(ys);
    FirstWithTagConcat([x], Preorder(ys), "P");
  }

  /** The first node is an element other than a paragraph: the paragraph is
      found below it if there is one there, and after it otherwise. */
  lemma QueryInElement(xs: seq<Node>, labelText: string)
    requires xs != [] && xs[0].Elem? && xs[0].tag != "P"
    requires QuerySelector(TrimFirstParagraph(xs[1..], labelText).0, "P")
             == TrimLeadingLabel(QuerySelector(xs[1..], "P"), labelText)
    requires QuerySelector(TrimFirstParagraph(xs[0].children, labelText).0, "P")
             == TrimLeadingLabel(QuerySelector(xs[0].children, "P"), labelText)
    ensures QuerySelector(TrimFirstParagraph(xs, labelText).0, "P")
            == TrimLeadingLabel(QuerySelector(xs, "P"), labelText)
  {
    var x := xs[0];
    var tail := xs[1..];
    var r := TrimFirstParagraph(xs, labelText).0;
    var inner := Preorder(x.children);
    assert Preorder(xs) == [x] + inner + Preorder(tail);
    FirstWithTagConcat([x] + inner, Preorder(tail), "P");
    FirstWithTagConcat([x], inner, "P");
    var (trimmedChildren, foundInside) := TrimFirstParagraph(x.children, labelText);
    QuerySelectorFinds(x.children, "P");
    if foundInside {
      var x' := x.(children := trimmedChildren);
      assert r == [x'] + tail;
      var inner' := Preorder(trimmedChildren);
      assert Preorder(r) == [x'] + inner' + Preorder(tail);
      FirstWithTagConcat([x'] + inner', Preorder(tail), "P");
      FirstWithTagConcat([x'], inner', "P");
    } else {
      var rest := TrimFirstParagraph(tail, labelText).0;
      assert r == [x] + rest;
      assert r[1..] == rest;
      assert Preorder(r) == [x] + inner + Preorder(rest);
      FirstWithTagConcat([x] + inner, Preorder(rest), "P");
    }
  }

  // ---------------------------------------------------------------------
  // init

  /** After `init`, each element is exactly what decorating it with the first
      table entry it matches makes of it: later entries never touch it
      again. */
  lemma {:induction false} InitFirstMatch(blocks: seq<Node>, types: seq<(string, Config)>, i: nat)
    requires i < |blocks|
    ensures InitWith(blocks, types)[i] == ApplyMatch(blocks[i], FirstMatch(blocks[i], types))
    decreases |types|
  {
    if types != [] {
      var p := DecoratePass(blocks, types[0].0, types[0].1);
      InitFirstMatch(p, types[1..], i);
      if Selects(blocks[i], types[0].0) {
        assert IsDecorated(p[i]);
      }
    }
  }

  /** Running `init` a second time changes nothing. */
  lemma InitIdempotent(blocks: seq<Node>)
    ensures Init(Init(blocks)) == Init(blocks)
  {
    var once := Init(blocks);
    forall i | 0 <= i < |blocks|
      ensures Init(once)[i] == once[i]
    {
      InitFirstMatch(blocks, Types, i);
      InitFirstMatch(once, Types, i);
      if FirstMatch(blocks[i], Types).Some? {
        assert IsDecorated(once[i]);
      } else {
        assert once[i] == blocks[i];
      }
    }
  }

  /** An element carrying several category classes is decorated by the
      first of them in table order: `div.note.warning` becomes a Note. */
  lemma MultiClassExample()
    ensures var e := Elem("DIV", ["warning", "note"], map[], []);
            var r := Init([e])[0];
            && r.Elem? && DataAdmonition in r.attrs && RoleAttr in r.attrs
            && r.attrs[DataAdmonition] == "note"
            && r.attrs[RoleAttr] == "note"
            && "admonition--info" in r.classes && "admonition--warn" !in r.classes
  {
    var e := Elem("DIV", ["warning", "note"], map[], []);
    var r := DecorateBlock(e, Types[0].1);
    MultiClassUsesNote(e);
    assert r.attrs[DataAdmonition] == "note" && r.attrs[RoleAttr] == "note" by {
      DecorateBlockAttrs(e, Types[0].1);
      TypesLabels();
      assert Lower(Types[0].1.labelText) == Types[0].0;
    }
    assert "admonition--info" in r.classes && "admonition--warn" !in r.classes by {
      DecorateBlockClasses(e, Types[0].1);
    }
  }

  lemma MultiClassUsesNote(e: Node)
    requires e == Elem("DIV", ["warning", "note"], map[], [])
    ensures Init([e])[0] == DecorateBlock(e, Types[0].1)
  {
    InitFirstMatch([e], Types, 0);
    assert Selects(e, Types[0].0) by { assert e.classes[1] == "note"; }
  }
}

=== FILE: copy_buttons.dfy ===
/**
 * The copy-button pass over code containers: every container that holds a
 * `pre` element and has not been handled before gets one copy button
 * appended and is then marked, so repeated passes add nothing.
 */
module CopyButtons {
  import opened Dom

  /** The marker attribute behind `dataset.copyHandlerAdded`. */
  const MarkerAttr := "data-copy-handler-added"
  const ButtonClass := "copy-code-button"

  /** The button the pass appends; its icon markup is an opaque token. */
  function CopyButton(): (b: Node)
    ensures b.Elem? && b.tag == "BUTTON" && b.classes == [ButtonClass]
    ensures !ContainsTag([b], "PRE")
  {
    var b := Elem("BUTTON", [ButtonClass],
      map["type" := "button",
          "aria-label" := "Copy code snippet to clipboard",
          "title" := "Copy code"],
      [Markup("copy-icon")]);
    assert !ContainsTag(b.children, "PRE");
    b
  }

  /** A dataset value is truthy when it is present and non-empty. */
  predicate IsMarked(c: Node) {
    c.Elem? && MarkerAttr in c.attrs && c.attrs[MarkerAttr] != ""
  }

  /** `container.querySelector('pre')` finds something. */
  predicate HasPre(c: Node) {
    c.Elem? && ContainsTag(c.children, "PRE")
  }

  /** The number of copy buttons among the direct children. */
  function CountButtons(xs: seq<Node>): nat {
    if xs == [] then 0
    else CountButtons(xs[..|xs| - 1]) + (if xs[|xs| - 1] == CopyButton() then 1 else 0)
  }

  /** The body of the `forEach` callback for one container. */
  function AddCopyButton(c: Node): (r: Node)
    requires c.Elem?
    ensures r.Elem? && r.tag == c.tag && r.classes == c.classes
    ensures IsMarked(r) <==> IsMarked(c) || HasPre(c)
    ensures HasPre(r) <==> HasPre(c)
    ensures CountButtons(r.children) <= CountButtons(c.children) + 1
    ensures r != c ==> !IsMarked(c) && IsMarked(r) && r.children == c.children + [CopyButton()]
    ensures r != c ==> r.attrs == c.attrs[MarkerAttr := "true"]
    ensures r != c ==> CountButtons(r.children) == CountButtons(c.children) + 1
    ensures r == c <==> IsMarked(c) || !HasPre(c)
  {
    if IsMarked(c) || !HasPre(c) then c
    else
      ButtonAppended(c.children);
      Elem(c.tag, c.classes, c.attrs[MarkerAttr := "true"], c.children + [CopyButton()])
  }

  /** Appending the button adds one to the count and no `pre`. */
  lemma ButtonAppended(xs: seq<Node>)
    ensures CountButtons(xs + [CopyButton()]) == CountButtons(xs) + 1
    ensures ContainsTag(xs + [CopyButton()], "PRE") <==> ContainsTag(xs, "PRE")
  {
    assert (xs + [CopyButton()])[..|xs|] == xs;
    ContainsTagConcat(xs, [CopyButton()], "PRE");
  }

  predicate AllElems(cs: seq<Node>) {
    forall i :: 0 <= i < |cs| ==> cs[i].Elem?
  }

  /** `addCopyButtonsToCodeBlocks()` over the elements of class
      `org-src-container`, given in document order. */
  function Pass(cs: seq<Node>): (r: seq<Node>)
    requires AllElems(cs)
    ensures |r| == |cs| && AllElems(r)
    ensures forall i :: 0 <= i < |cs| ==> r[i] == AddCopyButton(cs[i])
    ensures forall i :: 0 <= i < |cs| ==> (IsMarked(r[i]) <==> IsMarked(cs[i]) || HasPre(cs[i]))
    ensures forall i :: 0 <= i < |cs| && r[i] != cs[i] ==>
      r[i].attrs == cs[i].attrs[MarkerAttr := "true"] && r[i].children == cs[i].children + [CopyButton()]
  {
    seq(|cs|, i requires 0 <= i < |cs| => AddCopyButton(cs[i]))
  }

  /** `k` passes over the same containers. */
  function Passes(cs: seq<Node>, k: nat): (r: seq<Node>)
    requires AllElems(cs)
    ensures |r| == |cs| && AllElems(r)
  {
    if k == 0 then cs else Pass(Passes(cs, k - 1))
  }

  /** Handling a container twice is handling it once. */
  lemma AddCopyButtonIdempotent(c: Node)
    requires c.Elem?
    ensures AddCopyButton(AddCopyButton(c)) == AddCopyButton(c)
  {
  }

  lemma PassIdempotent(cs: seq<Node>)
    requires AllElems(cs)
    ensures Pass(Pass(cs)) == Pass(cs)
  {
    forall i | 0 <= i < |cs|
      ensures Pass(Pass(cs))[i] == Pass(cs)[i]
    {
      AddCopyButtonIdempotent(cs[i]);
    }
  }

  /** Any positive number of passes leaves the same containers as one. */
  lemma {:induction false} PassesStable(cs: seq<Node>, k: nat)
    requires AllElems(cs) && k >= 1
    ensures Passes(cs, k) == Pass(cs)
  {
    if k > 1 {
      PassesStable(cs, k - 1);
      PassIdempotent(cs);
    }
  }

  /** However many passes run, each container gains at most one button; a
      container that became marked did so together with gaining exactly that
      button; and a container without `pre` gains neither. */
  lemma PassesAddAtMostOne(cs: seq<Node>, k: nat, i: int)
    requires AllElems(cs) && 0 <= i < |cs|
    ensures CountButtons(Passes(cs, k)[i].children) <= CountButtons(cs[i].children) + 1
    ensures IsMarked(Passes(cs, k)[i]) && !IsMarked(cs[i])
            ==> Passes(cs, k)[i].children == cs[i].children + [CopyButton()]
    ensures !HasPre(cs[i]) ==> Passes(cs, k)[i] == cs[i]
  {
    if k >= 1 {
      PassesStable(cs, k);
    }
  }

  /** A container skipped for lacking a `pre` stays unmarked, so once a `pre`
      is added to it a later pass gives it its button. */
  lemma SkippedContainerStaysEligible(c: Node, extra: seq<Node>)
    requires c.Elem? && !IsMarked(c) && !HasPre(c) && ContainsTag(extra, "PRE")
    ensures AddCopyButton(c) == c && !IsMarked(AddCopyButton(c))
    ensures var later := Elem(c.tag, c.classes, c.attrs, c.children + extra);
      AddCopyButton(later).children == later.children + [CopyButton()]
      && IsMarked(AddCopyButton(later))
  {
    ContainsTagConcat(c.children, extra, "PRE");
  }
}

=== FILE: dark_mode.dfy ===
/**
 * The whole theme script as it runs once at load: without a toggle button it
 * returns before doing anything, including the copy-button pass.
 */
module DarkMode {
  import opened Wrappers
  import opened Dom
  import Theme
  import CopyButtons

  /** What the script sees: whether `#theme-toggle` exists, the theme-related
      page state, and the selected code containers. */
  datatype Document = Document(hasToggle: bool, page: Theme.Page, containers: seq<Node>)

  /** The script's effect at load, assuming the document is already parsed. */
  function Load(d: Document): (r: Document)
    requires CopyButtons.AllElems(d.containers)
    ensures r.hasToggle == d.hasToggle && |r.containers| == |d.containers|
    ensures !d.hasToggle ==> r == d
    ensures d.hasToggle ==> r.page.stored == d.page.stored
    ensures d.hasToggle ==> (r.page.dataTheme == Some("dark") <==> d.page.stored == Some("dark"))
    ensures d.hasToggle ==> forall i :: 0 <= i < |d.containers| ==>
      (CopyButtons.IsMarked(r.containers[i]) <==> CopyButtons.IsMarked(d.containers[i]) || CopyButtons.HasPre(d.containers[i]))
  {
    if !d.hasToggle then d
    else Document(true, Theme.Startup(d.page), CopyButtons.Pass(d.containers))
  }

  /** Two clicks after a load restore the attribute but not the stored
      preference: with nothing stored, the second click leaves "light" in
      storage. */
  lemma ToggleTwiceStoresTheme(p: Theme.Page)
    requires p.stored == None
    ensures Theme.Toggle(Theme.Toggle(Theme.Startup(p))).dataTheme == Theme.Startup(p).dataTheme
    ensures Theme.Toggle(Theme.Toggle(Theme.Startup(p))).stored == Some("light")
    ensures Theme.Toggle(Theme.Toggle(Theme.Startup(p))).stored != p.stored
  {
    Theme.ToggleTwice(Theme.Startup(p));
  }
}

=== FILE: dom.dfy ===
/**
 * A small abstract document tree standing in for the browser DOM.
 * Element tags are the upper-case `tagName` values of HTML elements.
 */
module Dom {
  import opened Wrappers

  /** A node: a text node, an element, or markup installed through
      `innerHTML` (the icon payloads), kept as an uninterpreted token. */
  datatype Node =
    | Text(text: string)
    | Elem(tag: string, classes: seq<string>, attrs: map<string, string>, children: seq<Node>)
    | Markup(token: string)

  /** `textContent` of a node. An icon's markup holds no text. */
  function TextContent(n: Node): string {
    match n
    case Text(s) => s
    case Elem(_, _, _, children) => TextContentSeq(children)
    case Markup(_) => ""
  }

  function TextContentSeq(xs: seq<Node>): string {
    if xs == [] then "" else TextContent(xs[0]) + TextContentSeq(xs[1..])
  }

  /** The children an element gets when `s` is assigned to its `textContent`:
      a single text node, or none at all for the empty string. */
  function TextChildren(s: string): (r: seq<Node>)
    ensures TextContentSeq(r) == s
    ensures |r| <= 1 && forall i :: 0 <= i < |r| ==> r[i].Text?
  {
    if s == "" then [] else [Text(s)]
  }

  /** An element with no attributes whose only content is the text `s`. */
  function ElemWithText(tag: string, classes: seq<string>, attrs: map<string, string>, s: string): (r: Node)
    ensures r.Elem? && r.tag == tag && TextContent(r) == s
  {
    Elem(tag, classes, attrs, TextChildren(s))
  }

  predicate HasClass(n: Node, c: string) {
    n.Elem? && c in n.classes
  }

  /** `classList.add(c)`: appends the token unless it is already present. */
  function AddClass(classes: seq<string>, c: string): (r: seq<string>)
    ensures c in r
    ensures forall x :: x in r <==> x in classes || x == c
    ensures c in classes ==> r == classes
    ensures |classes| <= |r| <= |classes| + 1 && r[..|classes|] == classes
  {
    if c in classes then classes else classes + [c]
  }

  /** `querySelector(tag) != null` on an element whose children are `xs`:
      some node in `xs`, or below one of them, is an element with that tag. */
  predicate ContainsTag(xs: seq<Node>, tag: string) {
    exists i :: 0 <= i < |xs| && xs[i].Elem? && (xs[i].tag == tag || ContainsTag(xs[i].children, tag))
  }

  /** `n` is an element with that tag or has one below it. */
  predicate HoldsTag(n: Node, tag: string) {
    n.Elem? && (n.tag == tag || ContainsTag(n.children, tag))
  }

  /** The text of the text nodes among `ns`, concatenated in their order. */
  function TextNodesText(ns: seq<Node>): string {
    if ns == [] then "" else (if ns[0].Text? then ns[0].text else "") + TextNodesText(ns[1..])
  }

  lemma {:induction false} TextNodesTextConcat(a: seq<Node>, b: seq<Node>)
    ensures TextNodesText(a + b) == TextNodesText(a) + TextNodesText(b)
  {
    if a == [] {
      assert a + b == b;
    } else {
      assert (a + b)[0] == a[0];
      assert (a + b)[1..] == a[1..] + b;
      TextNodesTextConcat(a[1..], b);
    }
  }

  /** `textContent` is the text of every text node below, in document order:
      the recursive definition agrees with the tree-order reading. */
  lemma {:induction false} TextContentInTreeOrder(xs: seq<Node>)
    ensures TextContentSeq(xs) == TextNodesText(Preorder(xs))
  {
    if xs != [] {
      var x := xs[0];
      TextContentInTreeOrder(xs[1..]);
      if x.Elem? {
        TextContentInTreeOrder(x.children);
      }
      PreorderText(xs);
    }
  }

  /** The tree-order text of a list splits into the first node's own text, the
      text below it, and the text of its following siblings. */
  lemma PreorderText(xs: seq<Node>)
    requires xs != []
    ensures var x := xs[0];
      TextNodesText(Preorder(xs))
      == (if x.Text? then x.text else "")
         + (if x.Elem? then TextNodesText(Preorder(x.children)) else "")
         + TextNodesText(Preorder(xs[1..]))
  {
    var x := xs[0];
    var inner := if x.Elem? then Preorder(x.children) else [];
    assert Preorder(xs) == [x] + inner + Preorder(xs[1..]);
    TextNodesTextConcat([x] + inner, Preorder(xs[1..]));
    TextNodesTextConcat([x], inner);
    assert TextNodesText([x]) == if x.Text? then x.text else "" by {
      assert [x][1..] == [];
    }
  }

  /** `j` is the first position whose node is, or holds, an element with that tag. */
  predicate FirstHolding(xs: seq<Node>, j: int, tag: string) {
    && 0 <= j < |xs| && HoldsTag(xs[j], tag)
    && forall i :: 0 <= i < j ==> !HoldsTag(xs[i], tag)
  }

  /** `ys` is `xs` except that the element at `j` may have other children. */
  predicate ChangedOnlyAt(xs: seq<Node>, ys: seq<Node>, j: int) {
    && |ys| == |xs| && 0 <= j < |xs|
    && (forall i :: 0 <= i < |xs| && i != j ==> ys[i] == xs[i])
    && xs[j].Elem? && ys[j].Elem? && ys[j] == xs[j].(children := ys[j].children)
  }

  /** The text content of a concatenation is the concatenation of the text contents. */
  lemma {:induction false} TextContentSeqConcat(xs: seq<Node>, ys: seq<Node>)
    ensures TextContentSeq(xs + ys) == TextContentSeq(xs) + TextContentSeq(ys)
  {
    if xs == [] {
      assert xs + ys == ys;
    } else {
      assert (xs + ys)[1..] == xs[1..] + ys;
      TextContentSeqConcat(xs[1..], ys);
    }
  }

  /** A tag occurs in a concatenation exactly when it occurs in one of the parts. */
  lemma ContainsTagConcat(xs: seq<Node>, ys: seq<Node>, tag: string)
    ensures ContainsTag(xs + ys, tag) <==> ContainsTag(xs, tag) || ContainsTag(ys, tag)
  {
    var zs := xs + ys;
    if ContainsTag(zs, tag) {
      var i :| 0 <= i < |zs| && zs[i].Elem? && (zs[i].tag == tag || ContainsTag(zs[i].children, tag));
      if i < |xs| { assert xs[i] == zs[i]; } else { assert ys[i - |xs|] == zs[i]; }
    }
    if ContainsTag(xs, tag) {
      var i :| 0 <= i < |xs| && xs[i].Elem? && (xs[i].tag == tag || ContainsTag(xs[i].children, tag));
      assert zs[i] == xs[i];
    }
    if ContainsTag(ys, tag) {
      var i :| 0 <= i < |ys| && ys[i].Elem? && (ys[i].tag == tag || ContainsTag(ys[i].children, tag));
      assert zs[|xs| + i] == ys[i];
    }
  }

  /** The nodes of a child list in document order: each node, then everything
      below it, then its following siblings. */
  function Preorder(xs: seq<Node>): seq<Node> {
    if xs == [] then []
    else [xs[0]] + (if xs[0].Elem? then Preorder(xs[0].children) else []) + Preorder(xs[1..])
  }

  /** The first element with tag `tag` in a list of nodes. */
  function FirstWithTag(ns: seq<Node>, tag: string): (r: Option<Node>)
    ensures r.Some? ==> r.value in ns && r.value.Elem? && r.value.tag == tag
    ensures r.None? <==> forall i :: 0 <= i < |ns| ==> !(ns[i].Elem? && ns[i].tag == tag)
    ensures r.Some? ==> exists k :: && 0 <= k < |ns| && ns[k] == r.value
                                    && forall i :: 0 <= i < k ==> !(ns[i].Elem? && ns[i].tag == tag)
  {
    if ns == [] then None
    else if ns[0].Elem? && ns[0].tag == tag then Some(ns[0])
    else
      var r := FirstWithTag(ns[1..], tag);
      assert forall i :: 1 <= i < |ns| ==> ns[i] == ns[1..][i - 1];
      assert r.Some? ==> exists k :: && 0 <= k < |ns| && ns[k] == r.value
                                      && forall i :: 0 <= i < k ==> !(ns[i].Elem? && ns[i].tag == tag) by {
        if r.Some? {
          var k :| && 0 <= k < |ns[1..]| && ns[1..][k] == r.value
                   && forall i :: 0 <= i < k ==> !(ns[1..][i].Elem? && ns[1..][i].tag == tag);
          assert ns[k + 1] == r.value;
        }
      }
      r
  }

  /** `querySelector(tag)` on an element whose children are `xs`: the first
      descendant with that tag in document order. */
  function QuerySelector(xs: seq<Node>, tag: string): (r: Option<Node>)
    ensures r.Some? ==> r.value.Elem? && r.value.tag == tag && r.value in Preorder(xs)
    ensures r.Some? ==> var ns := Preorder(xs);
      exists k :: && 0 <= k < |ns| && ns[k] == r.value
                  && forall i :: 0 <= i < k ==> !(ns[i].Elem? && ns[i].tag == tag)
  {
    FirstWithTag(Preorder(xs), tag)
  }

  /** The first match in a concatenation comes from the first part when it has one. */
  lemma {:induction false} FirstWithTagConcat(a: seq<Node>, b: seq<Node>, tag: string)
    ensures FirstWithTag(a + b, tag) == if FirstWithTag(a, tag).Some? then FirstWithTag(a, tag) else FirstWithTag(b, tag)
  {
    if a == [] {
      assert a + b == b;
    } else {
      assert (a + b)[0] == a[0];
      assert (a + b)[1..] == a[1..] + b;
      FirstWithTagConcat(a[1..], b, tag);
    }
  }

  /** `querySelector` finds an element exactly when one with that tag lies below. */
  lemma {:induction false} QuerySelectorFinds(xs: seq<Node>, tag: string)
    ensures QuerySelector(xs, tag).Some? <==> ContainsTag(xs, tag)
  {
    if xs != [] {
      var x := xs[0];
      var inner := if x.Elem? then Preorder(x.children) else [];
      FirstWithTagConcat([x] + inner, Preorder(xs[1..]), tag);
      FirstWithTagConcat([x], inner, tag);
      QuerySelectorFinds(xs[1..], tag);
      if x.Elem? {
        QuerySelectorFinds(x.children, tag);
      }
      ContainsTagConcat([x], xs[1..], tag);
      assert xs == [x] + xs[1..];
    }
  }

  /** `a` is `b` with some elements left out, the rest in their order. */
  predicate IsSubsequence<T(==)>(a: seq<T>, b: seq<T>)
    decreases |b|
  {
    || a == []
    || (b != [] && ((a[0] == b[0] && IsSubsequence(a[1..], b[1..])) || IsSubsequence(a, b[1..])))
  }

  predicate IsSuffix<T(==)>(a: seq<T>, b: seq<T>) {
    |a| <= |b| && a == b[|b| - |a|..]
  }
}

=== FILE: label_pattern.dfy ===
/**
 * The two regular expressions `trimLeadingLabel` applies to text:
 * `^<label>\s*:?` with the `i` flag (the label spliced in through
 * `escapeForRegex`, so it is a literal) and `^\s*:?\s*`. Each pattern is
 * described twice: by a grammar predicate with the longest-match rule that a
 * greedy pattern obeys, and by a function that follows the pattern's own
 * structure (a white-space run, an optional colon, a white-space run). The
 * lemmas `SpaceColonLongest`, `RemoveLabelLongest` and `ColonPrefixLongest`
 * connect the two.
 */
module LabelPattern {
  import opened Strings

  /** `d` matches `\s*:?` in full. */
  predicate MatchesSpaceColon(d: string) {
    || d == []
    || d == [':']
    || (IsSpace(d[0]) && MatchesSpaceColon(d[1..]))
  }

  /** `d` matches `\s*:?\s*` in full. */
  predicate MatchesSpaceColonSpace(d: string) {
    || d == []
    || (d[0] == ':' && AllSpace(d[1..]))
    || (IsSpace(d[0]) && MatchesSpaceColonSpace(d[1..]))
  }

  /** `t[..n]` is the longest prefix of `t` matching `\s*:?`: what the greedy
      pattern consumes at the start of `t`. */
  predicate IsLongestSpaceColon(t: string, n: nat) {
    && n <= |t|
    && MatchesSpaceColon(t[..n])
    && forall k :: n < k <= |t| ==> !MatchesSpaceColon(t[..k])
  }

  /** `t[..n]` is the longest prefix of `t` matching `\s*:?\s*`. */
  predicate IsLongestSpaceColonSpace(t: string, n: nat) {
    && n <= |t|
    && MatchesSpaceColonSpace(t[..n])
    && forall k :: n < k <= |t| ==> !MatchesSpaceColonSpace(t[..k])
  }

  /** How much of `t` the pattern `\s*:?` consumes: the white-space run, then a
      colon if one follows it. */
  function SpaceColonLength(t: string): (n: nat)
    ensures n <= |t|
  {
    var k := LeadingSpaces(t);
    if k < |t| && t[k] == ':' then k + 1 else k
  }

  /** `SpaceColonLength` is what the greedy pattern consumes. */
  lemma {:induction false} SpaceColonLongest(t: string)
    ensures IsLongestSpaceColon(t, SpaceColonLength(t))
  {
    var k := LeadingSpaces(t);
    var n := if k < |t| && t[k] == ':' then k + 1 else k;
    if t != [] && IsSpace(t[0]) {
      var t' := t[1..];
      SpaceColonLongest(t');
      var k' := LeadingSpaces(t');
      assert k == 1 + k';
      assert k < |t| ==> t[k] == t'[k'];
      var n' := if k' < |t'| && t'[k'] == ':' then k' + 1 else k';
      assert n == 1 + n';
      assert t[..n][1..] == t'[..n'];
      forall j | n < j <= |t|
        ensures !MatchesSpaceColon(t[..j])
      {
        assert t[..j][1..] == t'[..j - 1];
      }
    } else {
      assert k == 0;
      if t != [] && t[0] == ':' {
        assert t[..1] == [':'];
      }
    }
  }

  /** How much of `s` the pattern `\s*:?\s*` consumes: a white-space run, a
      colon if one follows it, and the white-space run after that. */
  function ColonPrefixEnd(s: string): (n: nat)
    ensures n <= |s|
  {
    var a := LeadingSpaces(s);
    var b := if a < |s| && s[a] == ':' then a + 1 else a;
    b + LeadingSpaces(s[b..])
  }

  lemma ColonPrefixEndStep(s: string)
    requires s != [] && IsSpace(s[0])
    ensures ColonPrefixEnd(s) == 1 + ColonPrefixEnd(s[1..])
  {
    var s' := s[1..];
    var a := LeadingSpaces(s);
    var a' := LeadingSpaces(s');
    assert a == 1 + a';
    assert a < |s| ==> s[a] == s'[a'];
    var b := if a < |s| && s[a] == ':' then a + 1 else a;
    var b' := if a' < |s'| && s'[a'] == ':' then a' + 1 else a';
    assert s[b..] == s'[b'..];
  }

  /** The structural reading of `\s*:?\s*` consumes the longest matching
      prefix. */
  lemma {:induction false} ColonPrefixLongest(s: string)
    ensures IsLongestSpaceColonSpace(s, ColonPrefixEnd(s))
    ensures IsLongestSpaceColonSpace(s, |s| - |StripColonPrefix(s)|)
  {
    assert |s| - |StripColonPrefix(s)| == ColonPrefixEnd(s);
    if s != [] && IsSpace(s[0]) {
      ColonPrefixLongest(s[1..]);
      ColonPrefixEndStep(s);
      LongestAfterSpace(s, ColonPrefixEnd(s));
    } else if s != [] && s[0] == ':' {
      assert LeadingSpaces(s) == 0;
      ColonPrefixLongestColon(s);
    } else {
      assert LeadingSpaces(s) == 0;
    }
  }

  /** A longest match in `s[1..]` extends to one in `s` when `s[0]` is white
      space. */
  lemma LongestAfterSpace(s: string, n: nat)
    requires s != [] && IsSpace(s[0]) && 0 < n
    requires IsLongestSpaceColonSpace(s[1..], n - 1)
    ensures IsLongestSpaceColonSpace(s, n)
  {
    assert s[..n][1..] == s[1..][..n - 1];
    forall j | n < j <= |s|
      ensures !MatchesSpaceColonSpace(s[..j])
    {
      assert s[..j][1..] == s[1..][..j - 1];
    }
  }

  /** A leading colon is followed by the longest white-space run. */
  lemma ColonPrefixLongestColon(s: string)
    requires s != [] && s[0] == ':'
    ensures IsLongestSpaceColonSpace(s, 1 + LeadingSpaces(s[1..]))
  {
    var w := LeadingSpaces(s[1..]);
    var n := 1 + w;
    assert s[..n][1..] == s[1..][..w];
    forall j | n < j <= |s|
      ensures !MatchesSpaceColonSpace(s[..j])
    {
      assert s[..j][1..][w] == s[1..][w];
    }
  }

  /** How much of `s` the label pattern `^<label>\s*:?` consumes: nothing
      when `s` does not start with the label up to case. */
  function LabelMatchLength(s: string, labelText: string): (n: nat)
    ensures n <= |s|
    ensures !StartsWithIgnoringCase(s, labelText) ==> n == 0
    ensures StartsWithIgnoringCase(s, labelText) ==> |labelText| <= n
  {
    if StartsWithIgnoringCase(s, labelText) then |labelText| + SpaceColonLength(s[|labelText|..]) else 0
  }

  /** `s.replace(/^<label>\s*:?/i, '')` with the label read as a literal: when
      `s` starts with the label up to case, the label and what `\s*:?`
      consumes after it are removed; otherwise `s` is returned as it is. */
  function RemoveLabel(s: string, labelText: string): (r: string)
    ensures !StartsWithIgnoringCase(s, labelText) ==> r == s
    ensures StartsWithIgnoringCase(s, labelText) ==> |r| <= |s| - |labelText|
    ensures |r| <= |s| && r == s[|s| - |r|..]
  {
    s[LabelMatchLength(s, labelText)..]
  }

  /** After the label, exactly the longest `\s*:?` match is removed. */
  lemma RemoveLabelLongest(s: string, labelText: string)
    requires StartsWithIgnoringCase(s, labelText)
    ensures IsLongestSpaceColon(s[|labelText|..], |s| - |labelText| - |RemoveLabel(s, labelText)|)
  {
    SpaceColonLongest(s[|labelText|..]);
  }

  // `s.replace(/^\s*:?\s*/, '')`: what is left after the prefix that
  // `\s*:?\s*` consumes.
  function StripColonPrefix(s: string): (r: string)
    ensures |r| <= |s| && r == s[|s| - |r|..]
    ensures r == [] || !IsSpace(r[0])
  {
    var a := LeadingSpaces(s);
    var b := if a < |s| && s[a] == ':' then a + 1 else a;
    var n := LeadingSpaces(s[b..]);
    assert s[b + n..] == s[b..][n..];
    s[ColonPrefixEnd(s)..]
  }

  /** What `trimLeadingLabel` does to the text of the paragraph's first text
      node: the label match is removed, then the longest `\s*:?\s*` prefix of
      what is left. */
  function CleanLeadingText(s: string, labelText: string): (r: string)
    ensures |r| <= |s| && r == s[|s| - |r|..]
    ensures r == [] || !IsSpace(r[0])
    ensures StartsWithIgnoringCase(s, labelText) ==> |r| <= |s| - |labelText|
    ensures !StartsWithIgnoringCase(s, labelText) ==> r == StripColonPrefix(s)
  {
    CleanSuffix(s, labelText);
    StripColonPrefix(RemoveLabel(s, labelText))
  }

  lemma CleanSuffix(s: string, labelText: string)
    ensures var r := StripColonPrefix(RemoveLabel(s, labelText));
      |r| <= |s| && r == s[|s| - |r|..]
  {
    SuffixOfSuffix(s, RemoveLabel(s, labelText), StripColonPrefix(RemoveLabel(s, labelText)));
  }

  lemma SuffixOfSuffix(s: string, t: string, r: string)
    requires |t| <= |s| && t == s[|s| - |t|..]
    requires |r| <= |t| && r == t[|t| - |r|..]
    ensures |r| <= |s| && r == s[|s| - |r|..]
  {
  }

  /** The cleaned text is what is left after the label match and then the
      colon prefix of the rest. */
  lemma CleanLeadingTextDrop(s: string, labelText: string)
    ensures var a := LabelMatchLength(s, labelText);
      CleanLeadingText(s, labelText) == s[a + ColonPrefixEnd(s[a..])..]
  {
    var a := LabelMatchLength(s, labelText);
    assert s[a..][ColonPrefixEnd(s[a..])..] == s[a + ColonPrefixEnd(s[a..])..];
  }

  // Worked cases of `CleanLeadingText`.

  /** The label, the white space and the colon after it, and the white space
      after the colon all go. */
  lemma CleanLabelAndColon()
    ensures CleanLeadingText("note : ok", "Note") == "ok"
  {
    var s := "note : ok";
    assert StartsWithIgnoringCase(s, "Note");
    LeadingSpacesUnique(s[4..], 1);
    assert LabelMatchLength(s, "Note") == 6;
    LeadingSpacesUnique(s[6..], 1);
    LeadingSpacesUnique(s[7..], 0);
    assert ColonPrefixEnd(s[6..]) == 1 by { assert s[6..][1..] == s[7..]; }
    CleanLeadingTextDrop(s, "Note");
    assert s[7..] == "ok";
  }

  /** The match is by prefix only: a word that merely begins with the label
      loses that beginning. */
  lemma CleanWordStartingWithLabel()
    ensures CleanLeadingText("Notebook", "Note") == "book"
  {
    var s := "Notebook";
    assert StartsWithIgnoringCase(s, "Note");
    LeadingSpacesUnique(s[4..], 0);
    assert LabelMatchLength(s, "Note") == 4;
    assert ColonPrefixEnd(s[4..]) == 0 by { assert s[4..][0..] == s[4..]; }
    CleanLeadingTextDrop(s, "Note");
    assert s[4..] == "book";
  }

  /** Without the label, leading white space and a colon are still stripped. */
  lemma CleanWithoutLabel()
    ensures CleanLeadingText("  : ok", "Tip") == "ok"
  {
    var s := "  : ok";
    assert !StartsWithIgnoringCase(s, "Tip") by { assert !SameIgnoringCase(s[0], 'T'); }
    assert LabelMatchLength(s, "Tip") == 0;
    LeadingSpacesUnique(s, 2);
    LeadingSpacesUnique(s[3..], 1);
    assert ColonPrefixEnd(s) == 4;
    CleanLeadingTextDrop(s, "Tip");
    assert s[0..] == s;
    assert s[4..] == "ok";
  }

  /** At most two leading colons go: one with the label, one after it. */
  lemma CleanRepeatedColons()
    ensures CleanLeadingText("Note::: x", "Note") == ": x"
  {
    var s := "Note::: x";
    assert StartsWithIgnoringCase(s, "Note");
    LeadingSpacesUnique(s[4..], 0);
    assert LabelMatchLength(s, "Note") == 5;
    LeadingSpacesUnique(s[5..], 0);
    LeadingSpacesUnique(s[6..], 0);
    assert ColonPrefixEnd(s[5..]) == 1 by { assert s[5..][1..] == s[6..]; }
    CleanLeadingTextDrop(s, "Note");
    assert s[6..] == ": x";
  }
}

=== FILE: regex_escape.dfy ===
/**
 * `escapeForRegex`: a backslash is put before every regular-expression
 * syntax character so that a label can be spliced into a pattern and still
 * match only itself. Its partner is `Unescape`, which reads a pattern back
 * as a literal and refuses any pattern with a live syntax character.
 */
module RegexEscape {
  import opened Wrappers

  /** The characters in the class `[.*+?^${}()|[\]\\]`: exactly the
      ECMAScript SyntaxCharacter set. */
  const Specials: set<char> := {'.', '*', '+', '?', '^', '$', '{', '}', '(', ')', '|', '[', ']', '\\'}

  function EscapeChar(c: char): string {
    if c in Specials then ['\\', c] else [c]
  }

  /** `value.replace(/[.*+?^${}()|[\]\\]/g, '\\$&')`. */
  function Escape(s: string): (r: string)
    ensures |s| <= |r| <= 2 * |s|
    ensures s == [] <==> r == []
  {
    if s == [] then [] else EscapeChar(s[0]) + Escape(s[1..])
  }

  /** Reads a pattern as a literal: `\x` with `x` a syntax character stands for
      `x`, any other character that is not a syntax character stands for
      itself; a bare syntax character or any other escape is not literal. */
  function Unescape(p: string): Option<string>
    decreases |p|
  {
    if p == [] then Some([])
    else if p[0] == '\\' then
      if |p| >= 2 && p[1] in Specials then
        match Unescape(p[2..])
        case Some(t) => Some([p[1]] + t)
        case None => None
      else None
    else if p[0] in Specials then None
    else
      match Unescape(p[1..])
      case Some(t) => Some([p[0]] + t)
      case None => None
  }

  /** The escaped string is a pure literal pattern that denotes the original. */
  lemma {:induction false} UnescapeEscape(s: string)
    ensures Unescape(Escape(s)) == Some(s)
  {
    if s != [] {
      UnescapeEscape(s[1..]);
      var e := Escape(s);
      assert e == EscapeChar(s[0]) + Escape(s[1..]);
      if s[0] in Specials {
        assert e[2..] == Escape(s[1..]);
      } else {
        assert e[0] == s[0] && e[1..] == Escape(s[1..]);
        assert Unescape(e) == Some([s[0]] + s[1..]);
      }
      assert s == [s[0]] + s[1..];
    }
  }

  /** Every literal pattern is the escaping of what it denotes, so escaping is
      the only way to write a string as a literal pattern. */
  lemma {:induction false} EscapeUnescape(p: string, s: string)
    requires Unescape(p) == Some(s)
    ensures Escape(s) == p
    decreases |p|
  {
    if p != [] {
      if p[0] == '\\' {
        var t := Unescape(p[2..]).value;
        EscapeUnescape(p[2..], t);
        assert s == [p[1]] + t;
        assert s[1..] == t;
        assert p == ['\\', p[1]] + p[2..];
      } else {
        var t := Unescape(p[1..]).value;
        EscapeUnescape(p[1..], t);
        assert s == [p[0]] + t;
        assert s[1..] == t;
        assert p == [p[0]] + p[1..];
      }
    }
  }

  /** Escaping changes a string exactly when it holds a syntax character. */
  lemma {:induction false} EscapeUnchangedIff(s: string)
    ensures Escape(s) == s <==> forall i :: 0 <= i < |s| ==> s[i] !in Specials
  {
    if s != [] {
      EscapeUnchangedIff(s[1..]);
      if s[0] in Specials {
        assert |Escape(s)| > |s| by { assert |Escape(s[1..])| >= |s[1..]|; }
      } else {
        assert Escape(s) == [s[0]] + Escape(s[1..]);
        assert s == [s[0]] + s[1..];
        assert forall i :: 1 <= i < |s| ==> s[i] == s[1..][i - 1];
      }
    }
  }
}

=== FILE: strings.dfy ===
/**
 * Character and string helpers shared by the admonition decorator:
 * the white-space class that JavaScript's `\s` and `String.prototype.trim`
 * use, trimming, ASCII lower-casing and case-insensitive prefix matching.
 */
module Strings {

  /** ECMAScript WhiteSpace and LineTerminator code points: the set matched by
      the regular-expression class `\s` and removed by `trim()`. */
  predicate IsSpace(c: char) {
    var k := c as int;
    || 0x09 <= k <= 0x0D
    || k == 0x20 || k == 0xA0 || k == 0x1680
    || 0x2000 <= k <= 0x200A
    || k == 0x2028 || k == 0x2029 || k == 0x202F || k == 0x205F
    || k == 0x3000 || k == 0xFEFF
  }

  predicate AllSpace(s: string) {
    forall i :: 0 <= i < |s| ==> IsSpace(s[i])
  }

  /** Length of the maximal run of white space at the start of `s`. */
  function LeadingSpaces(s: string): (n: nat)
    ensures n <= |s|
    ensures AllSpace(s[..n])
    ensures n == |s| || !IsSpace(s[n])
  {
    if s == [] || !IsSpace(s[0]) then 0
    else
      var n := 1 + LeadingSpaces(s[1..]);
      assert s[..n] == [s[0]] + s[1..][..n - 1];
      n
  }

  /** A white-space run that stops at a non-space character, or at the end,
      is the maximal one. */
  lemma LeadingSpacesUnique(s: string, n: nat)
    requires n <= |s| && (forall i :: 0 <= i < n ==> IsSpace(s[i]))
    requires n == |s| || !IsSpace(s[n])
    ensures LeadingSpaces(s) == n
  {
    forall k | n < k <= |s|
      ensures !AllSpace(s[..k])
    {
      assert s[..k][n] == s[n];
    }
  }

  /** Length of the maximal run of white space at the end of `s`. */
  function TrailingSpaces(s: string): (n: nat)
    ensures n <= |s|
    ensures AllSpace(s[|s| - n..])
    ensures n == |s| || !IsSpace(s[|s| - n - 1])
  {
    if s == [] || !IsSpace(s[|s| - 1]) then 0
    else
      var t := s[..|s| - 1];
      var n := 1 + TrailingSpaces(t);
      assert s[|s| - n..] == t[|t| - (n - 1)..] + [s[|s| - 1]];
      n
  }

  /** `String.prototype.trim`: the slice of `s` between its leading and
      trailing white-space runs. */
  function Trim(s: string): (r: string)
    ensures r == [] <==> AllSpace(s)
    ensures r != [] ==> !IsSpace(r[0]) && !IsSpace(r[|r| - 1])
    ensures var a := LeadingSpaces(s);
            && a + |r| <= |s| && r == s[a..a + |r|] && AllSpace(s[a + |r|..])
  {
    var a := LeadingSpaces(s);
    if a == |s| then
      assert s[..a] == s;
      []
    else
      TrimBounds(s);
      s[a..|s| - TrailingSpaces(s)]
  }

  lemma TrimBounds(s: string)
    requires LeadingSpaces(s) < |s|
    ensures LeadingSpaces(s) < |s| - TrailingSpaces(s)
    ensures !AllSpace(s)
  {
  }

  /** ASCII lower-casing of one character; every other character is kept. */
  function LowerChar(c: char): char {
    if 'A' <= c <= 'Z' then (c as int + 32) as char else c
  }

  predicate IsUpperAscii(c: char) {
    'A' <= c <= 'Z'
  }

  /** `toLowerCase` restricted to ASCII, which is exact for the ASCII labels
      the decorator lower-cases. */
  function Lower(s: string): (r: string)
    ensures |r| == |s|
    ensures forall i :: 0 <= i < |s| ==> !IsUpperAscii(r[i])
    ensures forall i :: 0 <= i < |s| ==> (r[i] == s[i] <==> !IsUpperAscii(s[i]))
    ensures forall i :: 0 <= i < |s| ==> SameIgnoringCase(r[i], s[i])
  {
    seq(|s|, i requires 0 <= i < |s| => LowerChar(s[i]))
  }

  /** ASCII case-insensitive equality of two characters: the comparison a
      JavaScript regular expression with the `i` flag makes for an ASCII
      pattern character. */
  predicate SameIgnoringCase(a: char, b: char) {
    LowerChar(a) == LowerChar(b)
  }

  /** `p` is a case-insensitive prefix of `s`. */
  predicate StartsWithIgnoringCase(s: string, p: string) {
    && |p| <= |s|
    && forall i :: 0 <= i < |p| ==> SameIgnoringCase(s[i], p[i])
  }

  /** Lower-casing keeps a string equal to itself up to case, and lower-casing
      is idempotent. */
  lemma LowerIgnoresCase(s: string)
    ensures StartsWithIgnoringCase(Lower(s), s) && StartsWithIgnoringCase(s, Lower(s))
    ensures Lower(Lower(s)) == Lower(s)
  {
  }

  /** A case-insensitive prefix is one that lower-cases to the same string as
      the start of `s`: the character-wise comparison of the `i` flag agrees
      with comparing lower-cased strings. */
  lemma StartsWithIgnoringCaseLower(s: string, p: string)
    ensures StartsWithIgnoringCase(s, p) <==> |p| <= |s| && Lower(s[..|p|]) == Lower(p)
  {
    if |p| <= |s| && Lower(s[..|p|]) == Lower(p) {
      forall i | 0 <= i < |p| ensures SameIgnoringCase(s[i], p[i]) {
        assert Lower(s[..|p|])[i] == Lower(p)[i];
      }
    }
  }
}

=== FILE: theme.dfy ===
/**
 * The light/dark theme toggle: a two-state machine over the page's root
 * `data-theme` attribute, the toggle button's accessible state and a single
 * stored preference.
 */
module Theme {
  import opened Wrappers

  datatype Theme = Light | Dark

  /** The string form used for the attribute and in storage. */
  function Name(t: Theme): string {
    match t
    case Light => "light"
    case Dark => "dark"
  }

  /** The button's accessible label: it names the action a click performs. */
  function Label(t: Theme): string {
    match t
    case Light => "Switch to dark mode"
    case Dark => "Switch to light mode"
  }

  /** The icon markup assigned to the button, kept as an opaque token: the
      moon for the light theme, the sun for the dark one. */
  datatype Icon = Moon | Sun

  function IconFor(t: Theme): Icon {
    match t
    case Light => Moon
    case Dark => Sun
  }

  function Opposite(t: Theme): Theme {
    match t
    case Light => Dark
    case Dark => Light
  }

  /** The parts of the page the toggle reads and writes: the root's
      `data-theme` attribute, the stored `theme` preference (each absent as
      `None`), and the toggle button's `aria-label`, `aria-pressed` and
      content. */
  datatype Page = Page(
    dataTheme: Option<string>,
    stored: Option<string>,
    ariaLabel: Option<string>,
    ariaPressed: Option<string>,
    buttonIcon: Option<Icon>)

  /** The normalising read used both for the stored preference at start-up
      and for the attribute on a click: only the exact string "dark" reads as
      the dark theme. */
  function ReadTheme(value: Option<string>): (t: Theme)
    ensures t == Dark <==> value == Some("dark")
    ensures t == Light <==> value != Some("dark")
  {
    if value == Some("dark") then Dark else Light
  }

  /** `applyTheme(theme, persist)`. */
  function ApplyTheme(p: Page, t: Theme, persist: bool): (r: Page)
    ensures r.dataTheme == Some(Name(t))
    ensures persist ==> r.stored == Some(Name(t))
    ensures !persist ==> r.stored == p.stored
    ensures r.ariaLabel == Some(Label(t))
    ensures r.ariaPressed == Some("true") <==> t == Dark
    ensures r.ariaPressed == Some("false") <==> t == Light
    ensures r.buttonIcon == Some(IconFor(t))
  {
    Page(Some(Name(t)),
         if persist then Some(Name(t)) else p.stored,
         Some(Label(t)),
         Some(if t == Dark then "true" else "false"),
         Some(IconFor(t)))
  }

  /** Start-up: the stored preference is read, normalised and applied without
      being written back. */
  function Startup(p: Page): (r: Page)
    ensures r.stored == p.stored
    ensures r.dataTheme == Some("dark") <==> p.stored == Some("dark")
    ensures r.dataTheme == Some("light") <==> p.stored != Some("dark")
  {
    ApplyTheme(p, ReadTheme(p.stored), false)
  }

  /** `toggleTheme()`: the active theme is read from the attribute, and its
      opposite is applied and stored. */
  function Toggle(p: Page): (r: Page)
    ensures ReadTheme(r.dataTheme) == Opposite(ReadTheme(p.dataTheme))
    ensures r.stored == r.dataTheme
    ensures r.dataTheme == Some("dark") <==> p.dataTheme != Some("dark")
    ensures var t := Opposite(ReadTheme(p.dataTheme));
      && r.dataTheme == Some(Name(t))
      && r.ariaLabel == Some(Label(t))
      && r.ariaPressed == Some(if t == Dark then "true" else "false")
      && r.buttonIcon == Some(IconFor(t))
  {
    ApplyTheme(p, Opposite(ReadTheme(p.dataTheme)), true)
  }

  /** A toggle started from `p` after `k` clicks. */
  function Clicks(p: Page, k: nat): Page {
    if k == 0 then p else Toggle(Clicks(p, k - 1))
  }

  /** Reading a written theme gives it back, and the two names differ. */
  lemma ReadName(t: Theme)
    ensures ReadTheme(Some(Name(t))) == t
    ensures Name(Light) != Name(Dark)
  {
  }

  /** Toggling is an involution on the theme. */
  lemma OppositeInvolution(t: Theme)
    ensures Opposite(Opposite(t)) == t && Opposite(t) != t
  {
  }

  /** Two clicks in a row amount to applying and storing the active theme,
      read through the normalisation. */
  lemma ToggleTwice(p: Page)
    ensures Toggle(Toggle(p)) == ApplyTheme(p, ReadTheme(p.dataTheme), true)
  {
  }

  /** From a normalised page, whose attribute holds "light" or "dark", two
      clicks restore the attribute and leave the stored preference equal to
      it. The whole page comes back exactly when it already stores its theme
      and the button already shows that theme's label, pressed state and
      icon: a page that only stores its theme is not enough. */
  lemma ToggleTwiceRestores(p: Page)
    requires p.dataTheme == Some("light") || p.dataTheme == Some("dark")
    ensures Toggle(Toggle(p)).dataTheme == p.dataTheme
    ensures Toggle(Toggle(p)).stored == p.dataTheme
    ensures var t := ReadTheme(p.dataTheme);
      Toggle(Toggle(p)) == p <==>
        && p.stored == p.dataTheme
        && p.ariaLabel == Some(Label(t))
        && p.ariaPressed == Some(if t == Dark then "true" else "false")
        && p.buttonIcon == Some(IconFor(t))
  {
    ToggleTwice(p);
  }

  /** Every page reached by a click is restored by two more. */
  lemma ToggleInvolutionAfterClick(p: Page)
    ensures Toggle(Toggle(Toggle(p))) == Toggle(p)
  {
    ToggleTwice(Toggle(p));
  }

  /** After start-up and `k` clicks the active theme is the start-up theme,
      flipped once per click; nothing is stored before the first click and
      the displayed theme is stored after it. */
  lemma {:induction false} ClicksAfterStartup(p: Page, k: nat)
    ensures var q := Clicks(Startup(p), k);
      && ReadTheme(q.dataTheme) == (if k % 2 == 0 then ReadTheme(p.stored) else Opposite(ReadTheme(p.stored)))
      && (q.dataTheme == Some("light") || q.dataTheme == Some("dark"))
      && (k == 0 ==> q.stored == p.stored)
      && (k > 0 ==> q.stored == q.dataTheme)
      && q.ariaLabel == Some(Label(ReadTheme(q.dataTheme)))
  {
    if k > 0 {
      ClicksAfterStartup(p, k - 1);
    }
  }
}

=== FILE: wrappers.dfy ===
/** The optional value used wherever a DOM call or a storage read may return `null`. */
module Wrappers {
  datatype Option<+T> = None | Some(value: T)
}
